=== FILE: README.md ===
# onboard-iOS decision rules, modelled in Dafny

This project models the pure decision rules under the onboard iOS client's
screens. The client is a board-game group app. Its screens are built with
ReactorKit: an action becomes mutations, and a reducer turns mutations into
state. The model covers:

- the terms-agreement reducer: the term list with per-term check marks, the
  derived "all agreed" flag, and the agree/disagree partition submitted on
  registration;
- the login reactor's dispatch from the server's pending onboarding stages
  to the next screen, and its per-provider sign-in actions;
- the guest-nickname bottom sheet: the 10-character input rule, the server
  reason to field state mapping, the button and label updates, the counter,
  and the throttled validation request;
- the group owner's name popup: the edit gate at 10 characters, its counter,
  and saving the owner name when editing ends;
- the two player reactors and the player repository's DTO to domain
  conversions, including the "reply without a value fails with `noExist`"
  rule;
- the member-management table: row count, hidden row, icon and row height;
- the terms row label, the auth token-type raw values, and the test screen's
  reactor.

Everything is a pure function over immutable datatypes. There is one module
per Swift file (`entities.dfy` holds the record-only files, among them the
agreement request and the game-result entity). `Wrappers` holds
`Option`/`Result`, `Decimal` renders `%d` and `%02d`, and `Sequences`
defines "is a subsequence of", used for the order-keeping filters. Ambient
singletons become parameters or return values:

- `LoginSessionManager.meId` is the `meId` parameter;
- `GameDataSingleton`'s stored guest nickname and group id are parameters of
  `BottomSheet.ValidationAction`;
- the nickname it saves is the `savedGuestNickname` field of a `FieldUpdate`;
- `GroupCreateManager.saveOwner` is the return value of
  `NameInputPopup.EndEditing`.

Use cases, the network manager and the coordinator are not in this model.
Their answers are given as arguments: a reply, or a function from request
arguments to a `Result`. Navigation is a returned value, such as a
`Destination` or a `Command`.

Three behaviours of the code are worth stating plainly:

- An empty stage list navigates nowhere. The "go home" transition is a
  commented-out TODO (`LoginReactor.swift:90-93`).
- The agreement request is made of two ordered lists, not two sets.
- "Agree to all" is driven by the stored `isAllAgreemented` flag, not by the
  check marks themselves. `setTerms` does not recompute that flag, so the
  flag can be stale (`SetTermsKeepsStaleFlag`). The empty initial list is not
  "all agreed" either (`InitialStateFacts`).

## Model

| member | source | states |
|---|---|---|
| `Decimal.ToDecimal` | onboard-iOS/DesignSystem/Views/BottomSheetViewController.swift:325 | `%d` gives a non-empty string of digits with no leading zero; it is one digit exactly for values below 10 |
| `Decimal.ParseToDecimal` | onboard-iOS/DesignSystem/Views/BottomSheetViewController.swift:325 | reading a `%d` numeral back gives the number that was printed |
| `Decimal.ToDecimalInjective` | onboard-iOS/DesignSystem/Views/BottomSheetViewController.swift:325 | different counts never print the same numeral |
| `Decimal.Pad2` | onboard-iOS/DesignSystem/Views/NameInputPopupView.swift:250 | `%02d` gives at least two digits that read back as the number; it is exactly two digits below 100 and matches `%d` from 10 on |
| `AuthEntity.FromRawValue` | onboard-iOS/Domain/Entity/AuthEntity.swift:20-25 | `AuthType(rawValue:)` returns a case only for that case's own raw string; every other string parses to nothing |
| `AuthEntity.RawValue` | onboard-iOS/Domain/Entity/AuthEntity.swift:20-25 | each token type's raw string; computes only, and its meaning is stated by `RawValueRoundTrip` (parsing it gives the case back) and `RawValueInjective` (no two cases share one) |
| `AuthEntity.RawValueRoundTrip` | onboard-iOS/Domain/Entity/AuthEntity.swift:20-25 | parsing KAKAO_ACCESS_TOKEN, GOOGLE_ID_TOKEN, APPLE_ID_TOKEN or REFRESH gives back kakao, google, apple or refresh |
| `AuthEntity.RawValueInjective` | onboard-iOS/Domain/Entity/AuthEntity.swift:21-24 | the four raw strings are pairwise distinct |
| `TermsAgreementReactor.ToState` | onboard-iOS/Presentation/SignUp/TermsAgreementReactor.swift:182-192 | loading keeps the length and order, copies each term's code, title, url and required flag, and starts every term unchecked |
| `TermsAgreementReactor.ToStateRoundTrip` | onboard-iOS/Presentation/SignUp/TermsAgreementReactor.swift:182-192 | dropping the check marks from the loaded list gives back exactly the fetched list |
| `TermsAgreementReactor.OnTermsList` | onboard-iOS/Presentation/SignUp/TermsAgreementReactor.swift:121-127 | each fetched list becomes exactly one `setTerms` mutation carrying the converted list (`toState` of the reply), of the same length; it is "all checked" only when the list is empty |
| `TermsAgreementReactor.UpdateAgreementStatus` | onboard-iOS/Presentation/SignUp/TermsAgreementReactor.swift:194-213 | toggling row i flips only term i's mark, keeps its other fields and every other term, and leaves the flag equal to "every term is checked" |
| `TermsAgreementReactor.UpdateAllAgreementStatus` | onboard-iOS/Presentation/SignUp/TermsAgreementReactor.swift:215-229 | "all" gives every term the negation of the old flag, keeps their other fields, and negates the flag |
| `TermsAgreementReactor.Reduce` | onboard-iOS/Presentation/SignUp/TermsAgreementReactor.swift:79-98 | `setTerms` replaces the list and keeps the flag; a row toggle is `updateAgreementStatus` (only that row flips, and the state is consistent after); "all" is `updateAllAgreementStatus` (every term takes the old flag's negation, and the flag flips); a row index must be in range |
| `TermsAgreementReactor.InitialStateFacts` | onboard-iOS/Presentation/SignUp/TermsAgreementReactor.swift:14-32 | the screen starts with no terms and the flag down, which is not the vacuous "every term is checked" of the empty list |
| `TermsAgreementReactor.SetTermsKeepsStaleFlag` | onboard-iOS/Presentation/SignUp/TermsAgreementReactor.swift:83-84 | after `setTerms`, a raised flag can sit beside a list with no term checked |
| `TermsAgreementReactor.CheckStatusTwice` | onboard-iOS/Presentation/SignUp/TermsAgreementReactor.swift:194-212 | toggling the same row twice restores the list; the whole state comes back exactly when its flag was consistent |
| `TermsAgreementReactor.AllAgreementTwice` | onboard-iOS/Presentation/SignUp/TermsAgreementReactor.swift:215-229 | "all" twice restores the flag and leaves every term checked exactly when the flag was originally up |
| `TermsAgreementReactor.AllAgreementPreservesConsistency` | onboard-iOS/Presentation/SignUp/TermsAgreementReactor.swift:215-229 | from a consistent non-empty list, "all" keeps the flag consistent and checks everything exactly when not all terms were checked |
| `TermsAgreementReactor.AllAgreementOnEmptyList` | onboard-iOS/Presentation/SignUp/TermsAgreementReactor.swift:215-229 | on an empty list with the flag set, "all" clears the flag although the empty list counts as all checked, so consistency is lost |
| `TermsAgreementReactor.PartitionCounts` | onboard-iOS/Presentation/SignUp/TermsAgreementReactor.swift:161-167 | the agree and disagree lists together have one entry per term, and as multisets they add up to the term codes |
| `TermsAgreementReactor.CodesWherePartition` | onboard-iOS/Presentation/SignUp/TermsAgreementReactor.swift:161-167 | the checked and unchecked one-pass lists together hold every term code, with multiplicity |
| `TermsAgreementReactor.CodesWhereMembership` | onboard-iOS/Presentation/SignUp/TermsAgreementReactor.swift:161-167 | a code is in the agree list (or the disagree list) iff some checked (or unchecked) term carries it |
| `TermsAgreementReactor.PartitionExact` | onboard-iOS/Presentation/SignUp/TermsAgreementReactor.swift:161-167 | with distinct codes, each term's code is in the agree list iff it is checked, and in the disagree list iff it is not |
| `TermsAgreementReactor.CodesWhereOrdered` | onboard-iOS/Presentation/SignUp/TermsAgreementReactor.swift:161-167 | both lists keep the order of the term list (a corollary of `CodesWhereIsMarkedCodes` and `Marked`) |
| `TermsAgreementReactor.Marked` | onboard-iOS/Presentation/SignUp/TermsAgreementReactor.swift:161-167 | the `filter` by check mark keeps the terms in list order, each term with that mark as often as it occurs, and no other term |
| `TermsAgreementReactor.CodesCons` | onboard-iOS/Presentation/SignUp/TermsAgreementReactor.swift:161-167 | the code list of a term followed by a list is that term's code followed by the list's codes |
| `TermsAgreementReactor.CodesWhere` | onboard-iOS/Presentation/SignUp/TermsAgreementReactor.swift:161-167 | the one-pass list is never longer than the term list; what it holds is stated by `CodesWhereIsMarkedCodes` |
| `TermsAgreementReactor.CodesWhereIsMarkedCodes` | onboard-iOS/Presentation/SignUp/TermsAgreementReactor.swift:161-167 | each one-pass list is exactly the codes of the terms with that mark, in term order, as `filter` then `map` builds it |
| `TermsAgreementReactor.Submission` | onboard-iOS/Presentation/SignUp/TermsAgreementReactor.swift:158-173 | the request's agree list is the codes of the checked terms and its disagree list those of the unchecked terms, each in term order |
| `TermsAgreementReactor.SubmissionIgnoresRequired` | onboard-iOS/Presentation/SignUp/TermsAgreementReactor.swift:155-179 | the submitted request depends only on codes and check marks, never on `isRequired` |
| `TermsAgreementReactor.SubmissionExample` | onboard-iOS/Presentation/SignUp/TermsAgreementReactor.swift:161-167 | required-but-unchecked A and optional checked B submit agree ["B"] and disagree ["A"] |
| `TermsAgreementReactor.Mutate` | onboard-iOS/Presentation/SignUp/TermsAgreementReactor.swift:54-77 | a check selection emits exactly `updateCheckStatus` of its row and "all" exactly `updateAllAgreement`, with no command; load issues the terms fetch, detail shows that row's url, and register submits the current partition, unblocked by required terms; none of those three emits a mutation |
| `TermsAgreementReactor.OnAgreeResult` | onboard-iOS/Presentation/SignUp/TermsAgreementReactor.swift:129-141 | the agreement reply never emits a mutation; it opens the nickname screen iff the submission was accepted |
| `LoginReactor.Mutate` | onboard-iOS/Presentation/Login/LoginReactor.swift:46-57 | Apple starts the Apple sign-in, Kakao the Kakao sign-in, and Google starts nothing; no action emits a mutation |
| `LoginReactor.OnGoogleToken` | onboard-iOS/Presentation/Login/LoginReactor.swift:156-162 | the Google delegate signs in with exactly the token it received |
| `LoginReactor.ResolveStages` | onboard-iOS/Presentation/Login/LoginReactor.swift:84-110 | an empty stage list navigates nowhere; otherwise there is a navigation iff the first stage string parses |
| `LoginReactor.ResolveStagesExact` | onboard-iOS/Presentation/Login/LoginReactor.swift:97-106 | the screen opened is d iff the first stage parses to a stage leading to d |
| `LoginReactor.OnlyFirstStageMatters` | onboard-iOS/Presentation/Login/LoginReactor.swift:87 | stages after the first never change the outcome |
| `LoginReactor.UnrecognisedFirstStageBlocks` | onboard-iOS/Presentation/Login/LoginReactor.swift:87-95 | an unrecognised first stage navigates nowhere, even when a later stage would be recognised |
| `LoginReactor.StageDestinations` | onboard-iOS/Presentation/Login/LoginReactor.swift:97-106 | terms and updateTerms both open the terms screen; nickname opens nickname setting; joinGroup opens group search |
| `LoginReactor.DestinationOf` | onboard-iOS/Presentation/Login/LoginReactor.swift:97-106 | the terms screen opens exactly for terms and updateTerms, nickname setting exactly for nickname, group search exactly for joinGroup |
| `PlayerRepository.PlayerToDomain` | onboard-iOS/Repository/Game/PlayerRepository.swift:111-127 | the player list keeps its length and order, with id, role, nickname and level copied; cursor and hasNext are copied |
| `PlayerRepository.PlayerToDomainRoundTrip` | onboard-iOS/Repository/Game/PlayerRepository.swift:113-125 | the conversion is a bijection: converting back gives the DTO, and the DTO of any record converts to that record |
| `PlayerRepository.GuestNicknameToDomain` | onboard-iOS/Repository/Game/PlayerRepository.swift:129-136 | availability is copied; a present reason is kept and a missing reason becomes "" |
| `PlayerRepository.GuestNicknameReasonCollapse` | onboard-iOS/Repository/Game/PlayerRepository.swift:130-134 | two replies convert alike iff their reasons agree once a missing reason is read as "" |
| `PlayerRepository.Unwrap` | onboard-iOS/Repository/Game/PlayerRepository.swift:30-37 | a request succeeds iff the reply has a value, with that value converted; a thrown error is rethrown unchanged; a missing value throws `noExist` |
| `PlayerRepository.NoExistExactly` | onboard-iOS/Repository/Game/PlayerRepository.swift:30-37 | `noExist` comes out exactly when the value is missing or the network layer itself threw `noExist` |
| `PlayerRepository.RequestPlayerList` | onboard-iOS/Repository/Game/PlayerRepository.swift:18-38 | succeeds iff the reply holds a value, then with its domain conversion; a thrown error is passed on unchanged |
| `PlayerRepository.RequestValidateNickname` | onboard-iOS/Repository/Game/PlayerRepository.swift:40-63 | succeeds iff the reply holds a value, then with its domain conversion; a thrown error is passed on unchanged |
| `PlayerRepository.RequestAddPlayer` | onboard-iOS/Repository/Game/PlayerRepository.swift:65-86 | succeeds iff the reply holds a value, then with its domain conversion; a thrown error is passed on unchanged |
| `PlayerRepository.RequestAllPlayerList` | onboard-iOS/Repository/Game/PlayerRepository.swift:88-108 | succeeds iff the reply holds a value, then with the leaderboard conversion; a thrown error is passed on unchanged |
| `PlayerRepository.MissingValueIsNoExist` | onboard-iOS/Repository/Game/PlayerRepository.swift:17-109 | all four requests fail with `noExist` on a reply without a value |
| `PlayerReactor.Reduce` | onboard-iOS/Presentation/GameResult/Reactor/PlayerReactor.swift:58-73 | each state field changes only under its own mutation, and then takes the mutation's value |
| `PlayerReactor.ReduceIdempotent` | onboard-iOS/Presentation/GameResult/Reactor/PlayerReactor.swift:58-73 | applying any mutation twice equals applying it once |
| `PlayerReactor.ReduceCommutes` | onboard-iOS/Presentation/GameResult/Reactor/PlayerReactor.swift:58-73 | mutations of different fields commute; of the same field, the later one wins |
| `PlayerReactor.Emit` | onboard-iOS/Presentation/GameResult/Reactor/PlayerReactor.swift:82-90 | a use-case answer gives one mutation built from the answer, or passes on the error it threw |
| `PlayerReactor.Mutate` | onboard-iOS/Presentation/GameResult/Reactor/PlayerReactor.swift:45-148 | each action calls its use case with its own arguments; the player list and leaderboard succeed as one-element lists and the other two carry the answer; on failure the use case's own error is passed on |
| `PlayerReactor.ActionTouchesOneField` | onboard-iOS/Presentation/GameResult/Reactor/PlayerReactor.swift:45-73 | a successful action changes only the field it targets and fills it |
| `GameResultPlayerReactor.Reduce` | onboard-iOS/Presentation/GameResult/PlayerReactor.swift:43-52 | `setPlayerData` replaces the player data with the carried list |
| `GameResultPlayerReactor.ReduceIdempotent` | onboard-iOS/Presentation/GameResult/PlayerReactor.swift:43-52 | the same mutation twice equals once, and the previous state makes no difference |
| `GameResultPlayerReactor.Mutate` | onboard-iOS/Presentation/GameResult/PlayerReactor.swift:36-73 | `fetchResult` asks the use case with the same group id and size; success is one mutation holding a one-element list, failure passes the error |
| `GameResultPlayerReactor.FetchThenReduce` | onboard-iOS/Presentation/GameResult/PlayerReactor.swift:36-73 | a successful fetch followed by the reducer leaves exactly the fetched player in the state |
| `BottomSheet.InputText` | onboard-iOS/DesignSystem/Views/BottomSheetViewController.swift:314-322 | 10 or more characters is `over` and the field keeps a prefix of exactly 10; fewer is `normal` and the text is unchanged |
| `BottomSheet.InputTextBounded` | onboard-iOS/DesignSystem/Views/BottomSheetViewController.swift:314-319 | after an input the field holds at most 10 characters, and a second pass keeps the same text |
| `BottomSheet.TenCharactersIsOver` | onboard-iOS/DesignSystem/Views/BottomSheetViewController.swift:314-322 | exactly 10 characters is already `over` and disables the register button; 9 characters are `normal` |
| `BottomSheet.ReasonToState` | onboard-iOS/DesignSystem/Views/BottomSheetViewController.swift:157-166 | DUPLICATED_NICKNAME gives `overLap` and INVALID_NICKNAME gives `invalid`, and nothing else does; a reason never gives `over` |
| `BottomSheet.NicknameResultState` | onboard-iOS/DesignSystem/Views/BottomSheetViewController.swift:155-166 | with no validation result there is no update; otherwise the state is the reason's mapping, so it is `normal` iff the reason is neither known code (including "") |
| `BottomSheet.UpdateTextFieldState` | onboard-iOS/DesignSystem/Views/BottomSheetViewController.swift:258-281 | only `normal` enables the button and saves the field text (or "") as the guest nickname; `over` turns the count red and clears the message; only `overLap` shows the already-used message, in red, with a grey count; `normal` clears the message and greys the count; `invalid` touches nothing but the button |
| `BottomSheet.ServerReasonGatesButton` | onboard-iOS/DesignSystem/Views/BottomSheetViewController.swift:154-174 | a validation result disables the button iff its reason is DUPLICATED_NICKNAME or INVALID_NICKNAME |
| `BottomSheet.CountLabel` | onboard-iOS/DesignSystem/Views/BottomSheetViewController.swift:324-326 | the label is a numeral of at least two digits that reads back as the current count, a slash, and a numeral that reads back as the total |
| `BottomSheet.CountLabelReadsBack` | onboard-iOS/DesignSystem/Views/BottomSheetViewController.swift:324-326 | the editing counter ends in "/10" and its head reads back as the field's length, zero-padded to two digits below 100 |
| `BottomSheet.ValidationAction` | onboard-iOS/DesignSystem/Views/BottomSheetViewController.swift:302-311 | validation is sent only once a guest nickname was saved; it carries that saved nickname and the stored group id, or 0 |
| `NameInputPopup.ReplaceRange` | onboard-iOS/DesignSystem/Views/NameInputPopupView.swift:247 | replacing a range keeps the text before and after it, puts the replacement in between, and adjusts the length accordingly |
| `NameInputPopup.Counter` | onboard-iOS/DesignSystem/Views/NameInputPopupView.swift:250 | the counter ends in "/10" and its head reads back as the length, in five characters below 100 |
| `NameInputPopup.ShouldChange` | onboard-iOS/DesignSystem/Views/NameInputPopupView.swift:239-257 | an edit is accepted iff the new length is at most 10; then the counter reads the new length "%02d/%02d"; a rejected edit leaves the counter as it was |
| `NameInputPopup.ApplyEdit` | onboard-iOS/DesignSystem/Views/NameInputPopupView.swift:239-257 | an accepted edit changes the text to the replaced text and shows the counter the gate computed; a rejected one changes nothing |
| `NameInputPopup.InitialCounterMatches` | onboard-iOS/DesignSystem/Views/NameInputPopupView.swift:89-95 | the initial "00/10" is what the counter format gives for the empty text |
| `NameInputPopup.DeletionAccepted` | onboard-iOS/DesignSystem/Views/NameInputPopupView.swift:244-256 | a deletion from a text of at most 10 characters is always accepted |
| `NameInputPopup.ApplyEditKeepsInvariant` | onboard-iOS/DesignSystem/Views/NameInputPopupView.swift:244-256 | one edit keeps the text within 10 characters and the counter in step with it |
| `NameInputPopup.ApplyEditsKeepInvariant` | onboard-iOS/DesignSystem/Views/NameInputPopupView.swift:239-257 | no sequence of edits takes a text of at most 10 characters past 10 or puts the counter out of step |
| `NameInputPopup.EndEditing` | onboard-iOS/DesignSystem/Views/NameInputPopupView.swift:259-273 | the owner name is saved iff the ending field is the name field and its text is present and non-empty; it is saved unchanged |
| `NameInputPopup.SavedOwnerNameWithinLimit` | onboard-iOS/DesignSystem/Views/NameInputPopupView.swift:239-273 | a name saved after any run of edits from the opened popup is non-empty and at most 10 characters |
| `MemberManage.NumberOfRows` | onboard-iOS/Presentation/GroupSetting/MemberManageViewController.swift:186-191 | the row count is the size of the first leaderboard page, or 0 with no page |
| `MemberManage.FirstWhereMe` | onboard-iOS/Presentation/GroupSetting/MemberManageViewController.swift:200 | the lookup returns the first entry carrying the user's id (no earlier entry has it), and finds nothing iff no entry has that id |
| `MemberManage.FilterMe` | onboard-iOS/Presentation/GroupSetting/MemberManageViewController.swift:259 | the filter keeps every entry with the user's id, as often as it occurs, in page order, and nothing else |
| `MemberManage.FirstWhereIsFilterFirst` | onboard-iOS/Presentation/GroupSetting/MemberManageViewController.swift:259 | the cell's `first(where:)` and the height's `filter` then `first` find the same entry |
| `MemberManage.CellForRow` | onboard-iOS/Presentation/GroupSetting/MemberManageViewController.swift:193-207 | a cell is hidden iff there is no page, or the user is listed and the row carries the user's id; the icon is the empty dice iff the role is GUEST; the title is the nickname |
| `MemberManage.HeightForRow` | onboard-iOS/Presentation/GroupSetting/MemberManageViewController.swift:255-265 | a row is 52 high iff the user is listed and the row is someone else's; otherwise it is 0; a row index outside the page is an error only when the user is listed |
| `MemberManage.HiddenMatchesHeight` | onboard-iOS/Presentation/GroupSetting/MemberManageViewController.swift:199-264 | with the user listed, hidden rows are exactly the zero-height rows; with the user absent, every row is zero high while its cell stays visible |
| `MemberManage.OnlyFirstPageMatters` | onboard-iOS/Presentation/GroupSetting/MemberManageViewController.swift:190-260 | pages after the first never change the row count, the cells or the heights |
| `TermsAgreementItem.Label` | onboard-iOS/Presentation/SignIn/Views/TermsAgreementItemView.swift:62-65 | the label is the required/optional prefix, one space, then the title unmodified |
| `TermsAgreementItem.LabelRoundTrip` | onboard-iOS/Presentation/SignIn/Views/TermsAgreementItemView.swift:63-64 | the title and the required flag can both be read back from the label, because the two prefixes differ |
| `TermsAgreementItem.LabelInjective` | onboard-iOS/Presentation/SignIn/Views/TermsAgreementItemView.swift:63-64 | different rows never share a label |
| `TestReactor.Reduce` | onboard-iOS/Presentation/Test/TestReactor.swift:66-75 | `setLoginResult(s)` sets the result to s |
| `TestReactor.ReduceForgetsState` | onboard-iOS/Presentation/Test/TestReactor.swift:66-75 | the outcome of a mutation is independent of the previous state, so applying it twice equals once |
| `TestReactor.LoginResultMutation` | onboard-iOS/Presentation/Test/TestReactor.swift:90-97 | a login result gives "success" iff it succeeded and "fail" iff it did not |
| `TestReactor.OnLoginResult` | onboard-iOS/Presentation/Test/TestReactor.swift:77-84 | only Apple results are merged into the mutation stream |
| `TestReactor.OnlyAppleChangesResult` | onboard-iOS/Presentation/Test/TestReactor.swift:77-97 | a Google or Kakao result yields no mutation, so it never changes the state; an Apple result sets "success" or "fail" |
| `TestReactor.Mutate` | onboard-iOS/Presentation/Test/TestReactor.swift:50-64 | Apple, Google and Kakao each start their own provider's sign-in and emit nothing; the test call emits its reply text iff it succeeds |

## Left out

- Layout, styling, animations, gesture handling and table-cell configuration beyond the hide/icon/title decision. These are UIKit calls with no decision logic.
- The Rx/`Task` machinery: `Observable.create`, the `transform` merges (each merged stream is a separate handler), `DispatchQueue`, and the 1-second `throttle` in the bottom sheet, which is timing. The model only says what a handler emits.
- `TermsAgreementReactor` swallows the error branch of the agreement reply (`TermsAgreementReactor.swift:135-137`); `OnAgreeResult` models it as no navigation and no mutation, and no error is surfaced.
- The coordinator, the use cases (`PlayerUseCase`, `TermsAgreementUseCase`, the login use cases, `GroupSearchUseCase`, `MemberUseCase`), the keychain and the network manager are not part of this model. Their answers are arguments.
- `OnboardingStage`'s raw values are declared outside the files modelled here. The stage parser is a function parameter, so the model claims nothing about which strings are recognised.
- `GameLeaderboardRes.toDomain` is declared outside the files modelled here. It is a parameter of `PlayerRepository.RequestAllPlayerList`.
- `PlayerRepository.PlayerToDomain`: the Swift declarations of `level` and `cursor` are outside the modelled files. The model takes them as `int`; they are only copied.
- `MemberManage.CellForRow`: the Swift declarations of `userId` and `meId` are outside the modelled files. The model takes both as `int`, so it does not cover a nil `meId`. The row-tap confirmation alert and its message are left out (presentation only).
- `BottomSheet.UpdateTextFieldState`: the text of `TextLabels.bottom_textField_already` is not part of this model. It is the symbolic `AlreadyInUse`.
- `AddPlayerToDomain` maps every reply to the one empty record. A contract could only restate that, so it has no row.
- Character counting: Swift's `count` counts grapheme clusters and `NSRange` counts UTF-16 units. Text here is `seq<char>`, and both counts are its length.
- `TermsAgreementReactor.UpdateAgreementStatus`, `TermsAgreementReactor.Reduce`, `TermsAgreementReactor.Mutate`, `MemberManage.CellForRow` and `MemberManage.HeightForRow` (the latter only when the user is listed): an out-of-range row index traps in the Swift code; the model requires the index to be in range instead of modelling the trap.
- `NameInputPopup.ReplaceRange`, `NameInputPopup.ShouldChange` and `NameInputPopup.ApplyEdit` require the edit's range to lie inside the text, where the Swift code raises `NSRangeException`; `NameInputPopup.ApplyEdits` instead ends the run with `None` on such an edit.
- The group search, group list, group join and group creation screens, the Apple login manager, and the TextLabels constants. They hold no decision rules.

=== FILE: auth_entity.dfy ===
/** The authentication exchange's request and response records, with the
    raw-value mapping of the token kind sent to the backend. */
module AuthEntity {
  import opened Wrappers

  /** The session returned by the backend. */
  datatype Res = Res(accessToken: string, refreshToken: string)

  datatype AuthType = Kakao | Google | Apple | Refresh

  /** The token exchange request. */
  datatype Req = Req(authType: AuthType, token: string)

  /** The `String` raw value of each case. */
  function RawValue(t: AuthType): string {
    match t
    case Kakao => "KAKAO_ACCESS_TOKEN"
    case Google => "GOOGLE_ID_TOKEN"
    case Apple => "APPLE_ID_TOKEN"
    case Refresh => "REFRESH"
  }

  /** `AuthType(rawValue:)`: the case whose raw value is `s`, if any. */
  function FromRawValue(s: string): (r: Option<AuthType>)
    ensures r.Some? ==> RawValue(r.value) == s
    ensures r.None? <==> forall t: AuthType :: RawValue(t) != s
  {
    if s == "KAKAO_ACCESS_TOKEN" then Some(Kakao)
    else if s == "GOOGLE_ID_TOKEN" then Some(Google)
    else if s == "APPLE_ID_TOKEN" then Some(Apple)
    else if s == "REFRESH" then Some(Refresh)
    else None
  }

  /** Parsing a raw value gives back the case it came from. */
  lemma RawValueRoundTrip(t: AuthType)
    ensures FromRawValue(RawValue(t)) == Some(t)
  {
  }

  /** No two cases share a raw value. */
  lemma RawValueInjective(a: AuthType, b: AuthType)
    ensures RawValue(a) == RawValue(b) <==> a == b
  {
  }
}

=== FILE: bottom_sheet.dfy ===
/** The guest-nickname bottom sheet: the 10-character input rule, the
    mapping of the server's validation reason to a field state, what each
    field state does to the register button and labels, and the counter. */
module BottomSheet {
  import opened Wrappers
  import Decimal
  import PlayerRepository
  import PlayerReactor

  const MaxLength: nat := 10

  datatype TextFieldState = Normal | Over | OverLap | Invalid

  datatype ButtonStatus = Disabled | Default

  datatype Color = Red | Gray8

  /** The "already in use" message; its text is not part of this model. */
  datatype Subtitle = AlreadyInUse

  /** A view property an update either leaves alone or sets. */
  datatype Write<T> = Keep | Set(value: T)

  /** Everything `updateTextFieldState` writes. The guest nickname saved into
      the shared game data is returned instead of stored. */
  datatype FieldUpdate = FieldUpdate(
    button: ButtonStatus,
    subtitleText: Write<Option<Subtitle>>,
    subtitleColor: Write<Color>,
    countColor: Write<Color>,
    savedGuestNickname: Option<string>)

  /** The field's state after typing, and the text the field then holds. */
  datatype Input = Input(state: TextFieldState, text: string)

  /** `inputText`: ten characters or more is `over` and the field is cut
      back to its first ten; anything shorter is `normal` and left as is. */
  function InputText(text: string): (r: Input)
    ensures r.state == Over <==> |text| >= MaxLength
    ensures r.state == Normal <==> |text| < MaxLength
    ensures r.text <= text
    ensures |r.text| == if |text| >= MaxLength then MaxLength else |text|
  {
    if |text| >= MaxLength then Input(Over, text[..MaxLength]) else Input(Normal, text)
  }

  /** The field never holds more than ten characters after an input, and a
      second pass over the result keeps the same text. */
  lemma InputTextBounded(text: string)
    ensures |InputText(text).text| <= MaxLength
    ensures InputText(InputText(text).text).text == InputText(text).text
  {
  }

  /** Exactly ten characters is already `over`, and that disables the
      register button; nine characters do not. */
  lemma TenCharactersIsOver(text: string)
    requires |text| == MaxLength
    ensures InputText(text) == Input(Over, text)
    ensures UpdateTextFieldState(InputText(text).state, Some(text)).button == Disabled
    ensures InputText(text[..MaxLength - 1]).state == Normal
  {
  }

  /** The validation reason from the server, as mapped in `bindState`. */
  function ReasonToState(reason: string): (r: TextFieldState)
    ensures r == OverLap <==> reason == "DUPLICATED_NICKNAME"
    ensures r == Invalid <==> reason == "INVALID_NICKNAME"
    ensures r != Over
  {
    if reason == "DUPLICATED_NICKNAME" then OverLap
    else if reason == "INVALID_NICKNAME" then Invalid
    else Normal
  }

  /** `compactMap`: no validation result yet means no update at all. */
  function NicknameResultState(result: Option<PlayerRepository.GuestNicknameRes>): (r: Option<TextFieldState>)
    ensures r.Some? <==> result.Some?
    ensures r.Some? ==> r.value == ReasonToState(result.value.reason)
    ensures r.Some? ==> (r.value == Normal <==>
                         result.value.reason != "DUPLICATED_NICKNAME" && result.value.reason != "INVALID_NICKNAME")
  {
    match result
    case None => None
    case Some(res) => Some(ReasonToState(res.reason))
  }

  /** `updateTextFieldState`: only `normal` enables the button, and only
      `normal` saves the field's text as the guest nickname. */
  function UpdateTextFieldState(state: TextFieldState, fieldText: Option<string>): (r: FieldUpdate)
    ensures r.button == Default <==> state == Normal
    ensures r.savedGuestNickname.Some? <==> state == Normal
    ensures state == Normal ==> r.savedGuestNickname == Some(fieldText.GetOr(""))
    ensures r.subtitleText == Set(Some(AlreadyInUse)) <==> state == OverLap
    ensures state == Invalid ==> r.subtitleText.Keep? && r.subtitleColor.Keep? && r.countColor.Keep?
    ensures state == Over ==> r.countColor == Set(Red) && r.subtitleText == Set(None) && r.subtitleColor.Keep?
    ensures state == OverLap ==> r.subtitleColor == Set(Red) && r.countColor == Set(Gray8)
    ensures state == Normal ==> r.subtitleText == Set(None) && r.countColor == Set(Gray8) && r.subtitleColor.Keep?
  {
    match state
    case Over => FieldUpdate(Disabled, Set(None), Keep, Set(Red), None)
    case OverLap => FieldUpdate(Disabled, Set(Some(AlreadyInUse)), Set(Red), Set(Gray8), None)
    case Invalid => FieldUpdate(Disabled, Keep, Keep, Keep, None)
    case Normal => FieldUpdate(Default, Set(None), Keep, Set(Gray8), Some(fieldText.GetOr("")))
  }

  /** A server verdict of duplicate or invalid blocks registration; any other
      reason, the empty one included, enables it. */
  lemma ServerReasonGatesButton(res: PlayerRepository.GuestNicknameRes, fieldText: Option<string>)
    ensures var st := NicknameResultState(Some(res)).value;
            UpdateTextFieldState(st, fieldText).button == Disabled <==>
            res.reason in {"DUPLICATED_NICKNAME", "INVALID_NICKNAME"}
  {
  }

  /** `updateCountLabel`: the count zero-padded to two digits, a slash, and
      the maximum. */
  function CountLabel(current: nat, total: nat): (shown: string)
    ensures var k := |shown| - |Decimal.ToDecimal(total)| - 1;
            && 2 <= k && shown[k] == '/'
            && Decimal.AllDigits(shown[..k]) && Decimal.ParseDecimal(shown[..k]) == current
            && Decimal.AllDigits(shown[k + 1..]) && Decimal.ParseDecimal(shown[k + 1..]) == total
  {
    var head, tail := Decimal.Pad2(current), Decimal.ToDecimal(total);
    var shown := head + "/" + tail;
    assert shown[..|head|] == head;
    assert shown[|head| + 1..] == tail;
    Decimal.ParseToDecimal(total);
    shown
  }

  /** The counter shown while editing reads back as the field's length out
      of ten, in five characters while the length is below 100. */
  lemma CountLabelReadsBack(fieldText: Option<string>)
    ensures var n := |fieldText.GetOr("")|;
            var shown := CountLabel(n, MaxLength);
            && |shown| >= 5
            && shown[|shown| - 3..] == "/10"
            && Decimal.AllDigits(shown[..|shown| - 3])
            && Decimal.ParseDecimal(shown[..|shown| - 3]) == n
            && (n < 100 <==> |shown| == 5)
  {
    var n := |fieldText.GetOr("")|;
    var shown := CountLabel(n, MaxLength);
    assert Decimal.ToDecimal(MaxLength) == "10";
    assert shown[..|shown| - 3] == Decimal.Pad2(n);
  }

  /** The throttled subscription: it validates the guest nickname last saved
      in the shared game data (not the text being typed), with group id 0
      when none is stored, and does nothing before a nickname was saved. */
  function ValidationAction(savedGuestNickname: Option<string>, groupId: Option<int>): (r: Option<PlayerReactor.Action>)
    ensures r.Some? <==> savedGuestNickname.Some?
    ensures r.Some? ==> r.value.ValidateNickname? && r.value.nickname == savedGuestNickname.value
    ensures r.Some? ==> r.value.groupId == (if groupId.Some? then groupId.value else 0)
  {
    match savedGuestNickname
    case None => None
    case Some(nickname) => Some(PlayerReactor.ValidateNickname(groupId.GetOr(0), nickname))
  }
}

=== FILE: decimal.dfy ===
/** Decimal rendering of counters, as done by `String(format:)` with the
    `%d` and `%02d` directives on non-negative integers. */
module Decimal {

  predicate IsDigit(c: char) {
    '0' <= c <= '9'
  }

  predicate AllDigits(s: string) {
    forall i :: 0 <= i < |s| ==> IsDigit(s[i])
  }

  function DigitChar(d: nat): (c: char)
    requires d < 10
    ensures IsDigit(c)
  {
    "0123456789"[d]
  }

  function DigitValue(c: char): (d: nat)
    requires IsDigit(c)
    ensures d < 10
    ensures DigitChar(d) == c
  {
    (c as int - '0' as int) as nat
  }

  /** `%d`: the shortest decimal numeral of `n`. */
  function ToDecimal(n: nat): (s: string)
    ensures 1 <= |s|
    ensures AllDigits(s)
    ensures |s| == 1 <==> n < 10
    ensures 1 < |s| ==> s[0] != '0'
    decreases n
  {
    if n < 10 then [DigitChar(n)] else ToDecimal(n / 10) + [DigitChar(n % 10)]
  }

  /** Reads a numeral back; the reference used to state what the renderings mean. */
  function ParseDecimal(s: string): nat
    requires AllDigits(s)
    decreases |s|
  {
    if |s| == 0 then 0
    else ParseDecimal(s[..|s| - 1]) * 10 + DigitValue(s[|s| - 1])
  }

  lemma {:induction false} ParseToDecimal(n: nat)
    ensures ParseDecimal(ToDecimal(n)) == n
    decreases n
  {
    if n >= 10 {
      var s := ToDecimal(n);
      assert s[..|s| - 1] == ToDecimal(n / 10);
      ParseToDecimal(n / 10);
    }
  }

  /** A numeral is determined by its value once leading zeros are excluded. */
  lemma ToDecimalInjective(m: nat, n: nat)
    ensures ToDecimal(m) == ToDecimal(n) ==> m == n
  {
    if ToDecimal(m) == ToDecimal(n) {
      ParseToDecimal(m);
      ParseToDecimal(n);
    }
  }

  /** `%02d`: at least two digits, padded on the left with '0'. */
  function Pad2(n: nat): (s: string)
    ensures 2 <= |s|
    ensures AllDigits(s)
    ensures ParseDecimal(s) == n
    ensures |s| == 2 <==> n < 100
    ensures n >= 10 ==> s == ToDecimal(n)
  {
    ParseToDecimal(n);
    if n < 10 then
      var s := "0" + ToDecimal(n);
      assert s[..|s| - 1] == "0";
      s
    else ToDecimal(n)
  }
}

=== FILE: entities.dfy ===
/** The terms records as the terms endpoint sends them. */
module TermsDTO {
  import opened Wrappers

  datatype Term = Term(code: string, title: string, url: string, isRequired: bool)

  datatype Terms = Terms(contents: seq<Term>)

  /** Reply to the agreement submission. */
  datatype TermsAgreementDTO = TermsAgreementDTO(result: Option<bool>)
}

/** The agreement submission's request, declared beside the terms records. */
module TermsAgreementRequest {

  /** Body of the agreement submission. */
  datatype Body = Body(agree: seq<string>, disagree: seq<string>)
}

/** The terms records of the domain layer. */
module TermsEntity {

  /** The Swift record spells the last field `isReuired`. */
  datatype Term = Term(code: string, title: string, url: string, isRequired: bool)

  datatype Terms = Terms(terms: seq<Term>)
}

/** The agree/disagree partition submitted once on registration. */
module TermsAgreementEntity {

  datatype Req = Req(agreeList: seq<string>, disagreeList: seq<string>)
}

/** The onboarding status: the stage codes still pending, in server order. */
module OnboardingDTO {
  import opened Wrappers

  datatype Onboarding = Onboarding(onboarding: seq<string>, mainGroupId: Option<int>)
}

/** The game list shown on the game-result screen. */
module GameResultEntity {

  datatype GameList = GameList(id: int, img: string, matchCount: int, maxMember: int, minMember: int, name: string)

  datatype Res = Res(list: seq<GameList>)
}

=== FILE: login_reactor.dfy ===
/** The login screen's reactor: the sign-in action per provider, and the
    dispatch of the server's pending onboarding stages to the next screen.
    Its `Mutation` type has no cases, so nothing here ever changes the
    screen's state; the stage handler's only effect is the navigation it
    requests, modelled as its return value. */
module LoginReactor {
  import opened Wrappers

  datatype OnboardingStage = Terms | UpdateTerms | Nickname | JoinGroup

  /** The coordinator entry points the handler can call. */
  datatype Destination = TermsAgreementView | NicknameSetting | GroupSearch

  /** The state is never reduced: it stays at its initial value. */
  datatype State = State(result: string, stage: seq<OnboardingStage>)

  const InitialState: State := State("", [])

  datatype Action = Apple | Google | Kakao

  datatype Provider = AppleProvider | KakaoProvider | GoogleProvider

  /** The use-case call a login action starts. */
  datatype SignIn = SignInWith(provider: Provider) | SignInWithGoogleToken(token: string)

  /** `mutate`: every action emits no mutation; Apple and Kakao start their
      sign-in, Google does nothing here (its sign-in runs from the delegate). */
  function Mutate(a: Action): (r: Option<SignIn>)
    ensures r.None? <==> a == Google
    ensures a == Apple ==> r == Some(SignInWith(AppleProvider))
    ensures a == Kakao ==> r == Some(SignInWith(KakaoProvider))
  {
    match a
    case Apple => Some(SignInWith(AppleProvider))
    case Google => None
    case Kakao => Some(SignInWith(KakaoProvider))
  }

  /** The Google delegate's `success(token:)` signs in with that token. */
  function OnGoogleToken(token: string): (r: SignIn)
    ensures r.SignInWithGoogleToken? && r.token == token
  {
    SignInWithGoogleToken(token)
  }

  /** The screen each recognised stage opens. */
  function DestinationOf(stage: OnboardingStage): (d: Destination)
    ensures d == TermsAgreementView <==> stage == Terms || stage == UpdateTerms
    ensures d == NicknameSetting <==> stage == Nickname
    ensures d == GroupSearch <==> stage == JoinGroup
  {
    match stage
    case Terms => TermsAgreementView
    case UpdateTerms => TermsAgreementView
    case Nickname => NicknameSetting
    case JoinGroup => GroupSearch
  }

  /** `mutation(result:)`: the first pending stage string, parsed with the
      stage enum's raw-value initialiser `parse`, picks at most one screen. */
  function ResolveStages(stages: seq<string>, parse: string -> Option<OnboardingStage>): (d: Option<Destination>)
    ensures |stages| == 0 ==> d.None?
    ensures d.Some? <==> |stages| > 0 && parse(stages[0]).Some?
  {
    if |stages| == 0 then None
    else match parse(stages[0])
      case None => None
      case Some(stage) => Some(DestinationOf(stage))
  }

  /** The screen chosen is `d` exactly when the first stage parses to a stage
      that leads to `d`. */
  lemma ResolveStagesExact(stages: seq<string>, parse: string -> Option<OnboardingStage>, d: Destination)
    ensures ResolveStages(stages, parse) == Some(d) <==>
            |stages| > 0 && parse(stages[0]).Some? && DestinationOf(parse(stages[0]).value) == d
  {
  }

  /** Stages after the first never affect the outcome. */
  lemma OnlyFirstStageMatters(first: string, rest: seq<string>, parse: string -> Option<OnboardingStage>)
    ensures ResolveStages([first] + rest, parse) == ResolveStages([first], parse)
  {
  }

  /** An unrecognised first stage navigates nowhere, whatever follows it. */
  lemma UnrecognisedFirstStageBlocks(stages: seq<string>, parse: string -> Option<OnboardingStage>, k: nat)
    requires |stages| > 0 && parse(stages[0]).None?
    requires 0 < k < |stages| && parse(stages[k]).Some?
    ensures ResolveStages(stages, parse).None?
    ensures ResolveStages(stages[k..], parse).Some?
  {
  }

  /** Both terms stages open the terms-agreement screen; the other two open
      distinct screens of their own. */
  lemma StageDestinations()
    ensures DestinationOf(Terms) == DestinationOf(UpdateTerms) == TermsAgreementView
    ensures DestinationOf(Nickname) == NicknameSetting
    ensures DestinationOf(JoinGroup) == GroupSearch
    ensures forall s: OnboardingStage :: DestinationOf(s) == TermsAgreementView <==> s == Terms || s == UpdateTerms
  {
  }
}

=== FILE: member_manage.dfy ===
/** The member-management table: how many rows it shows, which row is
    hidden, which icon a row gets, and each row's height. Only the first
    leaderboard page in the reactor's state is read; the signed-in user's id
    is a parameter. */
module MemberManage {
  import opened Wrappers
  import opened PlayerRepository
  import opened Sequences

  const RowHeight: int := 52

  datatype DiceImage = EmptyDice | Dice

  /** How a cell is configured; `None` for a cell that shows no player. */
  datatype Cell = Cell(isHidden: bool, content: Option<(DiceImage, string)>)

  /** The first leaderboard page's entries, if there is a page. */
  function FirstPage(allPlayer: seq<LeaderboardRes>): Option<seq<LeaderboardPlayer>> {
    if |allPlayer| == 0 then None else Some(allPlayer[0].contents)
  }

  /** The number of rows in the member table. */
  function NumberOfRows(allPlayer: seq<LeaderboardRes>): (n: nat)
    ensures n == |FirstPage(allPlayer).GetOr([])|
    ensures n == (if |allPlayer| == 0 then 0 else |allPlayer[0].contents|)
  {
    match FirstPage(allPlayer)
    case None => 0
    case Some(contents) => |contents|
  }

  /** Entry `i` carries the user's id and no earlier entry does. */
  predicate IsFirstMatch(contents: seq<LeaderboardPlayer>, meId: int, i: int) {
    0 <= i < |contents| && contents[i].userId == meId
    && forall j :: 0 <= j < i ==> contents[j].userId != meId
  }

  lemma FirstMatchShift(contents: seq<LeaderboardPlayer>, meId: int, i: int)
    requires |contents| > 0 && contents[0].userId != meId
    requires IsFirstMatch(contents[1..], meId, i)
    ensures IsFirstMatch(contents, meId, i + 1)
  {
    forall j | 0 <= j < i + 1
      ensures contents[j].userId != meId
    {
      if j > 0 {
        assert contents[j] == contents[1..][j - 1];
      }
    }
  }

  /** The first entry on the page that carries the user's id, if any. */
  function FirstWhereMe(contents: seq<LeaderboardPlayer>, meId: int): (me: Option<LeaderboardPlayer>)
    ensures me.Some? ==> exists i :: IsFirstMatch(contents, meId, i) && contents[i] == me.value
    ensures me.None? <==> forall i :: 0 <= i < |contents| ==> contents[i].userId != meId
    decreases |contents|
  {
    if |contents| == 0 then None
    else if contents[0].userId == meId then
      assert IsFirstMatch(contents, meId, 0);
      Some(contents[0])
    else
      var rest := FirstWhereMe(contents[1..], meId);
      if rest.None? then rest
      else
        var i :| IsFirstMatch(contents[1..], meId, i) && contents[1..][i] == rest.value;
        FirstMatchShift(contents, meId, i);
        rest
  }

  /** Every entry on the page that carries the user's id, in page order. */
  function FilterMe(contents: seq<LeaderboardPlayer>, meId: int): (mine: seq<LeaderboardPlayer>)
    ensures forall p :: p in mine ==> p in contents && p.userId == meId
    ensures |mine| == 0 <==> forall i :: 0 <= i < |contents| ==> contents[i].userId != meId
    ensures IsSubsequence(mine, contents)
    ensures forall p :: multiset(mine)[p] == if p.userId == meId then multiset(contents)[p] else 0
    decreases |contents|
  {
    if |contents| == 0 then []
    else
      var rest := FilterMe(contents[1..], meId);
      assert contents == [contents[0]] + contents[1..];
      if contents[0].userId == meId then
        assert ([contents[0]] + rest)[1..] == rest;
        [contents[0]] + rest
      else rest
  }

  /** The cell and the height look the user up in two ways, `first(where:)`
      and `filter` then `first`; both find the same entry. */
  lemma {:induction false} FirstWhereIsFilterFirst(contents: seq<LeaderboardPlayer>, meId: int)
    ensures FirstWhereMe(contents, meId) ==
            (if |FilterMe(contents, meId)| == 0 then None else Some(FilterMe(contents, meId)[0]))
    decreases |contents|
  {
    if |contents| > 0 && contents[0].userId != meId {
      FirstWhereIsFilterFirst(contents[1..], meId);
    }
  }

  /** The page addressed by a row index must be in range (UIKit asks only
      for rows it was told exist; Swift traps otherwise). */
  predicate ValidRow(allPlayer: seq<LeaderboardRes>, row: nat) {
    FirstPage(allPlayer).Some? ==> row < |FirstPage(allPlayer).value|
  }

  /** The user's own entry is on the first page. */
  predicate MeListed(allPlayer: seq<LeaderboardRes>, meId: int) {
    FirstPage(allPlayer).Some? && exists i :: 0 <= i < |FirstPage(allPlayer).value| && FirstPage(allPlayer).value[i].userId == meId
  }

  /** The cell shown for a row: hidden when there is no page or the row is
      the user's own, otherwise the player's icon and nickname. */
  function CellForRow(allPlayer: seq<LeaderboardRes>, meId: int, row: nat): (c: Cell)
    requires ValidRow(allPlayer, row)
    ensures c.isHidden <==>
              FirstPage(allPlayer).None? || (MeListed(allPlayer, meId) && FirstPage(allPlayer).value[row].userId == meId)
    ensures c.content.Some? <==> FirstPage(allPlayer).Some?
    ensures c.content.Some? ==> c.content.value.1 == FirstPage(allPlayer).value[row].nickname
    ensures c.content.Some? ==> (c.content.value.0 == EmptyDice <==> FirstPage(allPlayer).value[row].role == "GUEST")
  {
    match FirstPage(allPlayer)
    case None => Cell(true, None)
    case Some(contents) =>
      var player := contents[row];
      var me := FirstWhereMe(contents, meId);
      var hideOwner := me.Some? && me.value.userId == player.userId;
      var image := if player.role == "GUEST" then EmptyDice else Dice;
      Cell(hideOwner, Some((image, player.nickname)))
  }

  /** The height of a row: full height only for another player's row while
      the user is listed. The guard looks the user up before it reads the
      row, so an out-of-range row traps only when the user is listed. */
  function HeightForRow(allPlayer: seq<LeaderboardRes>, meId: int, row: nat): (h: int)
    requires MeListed(allPlayer, meId) ==> ValidRow(allPlayer, row)
    ensures h == 0 || h == RowHeight
    ensures h == RowHeight <==> MeListed(allPlayer, meId) && FirstPage(allPlayer).value[row].userId != meId
  {
    match FirstPage(allPlayer)
    case None => 0
    case Some(contents) =>
      var mine := FilterMe(contents, meId);
      if |mine| == 0 then 0
      else
        assert mine[0] in mine;
        var player := contents[row];
        if mine[0].userId == player.userId then 0 else RowHeight
  }

  /** When the user is listed, a row is hidden exactly when it is collapsed
      to height zero; when the user is not listed, every row is collapsed
      while its cell stays visible. */
  lemma HiddenMatchesHeight(allPlayer: seq<LeaderboardRes>, meId: int, row: nat)
    requires FirstPage(allPlayer).Some? && ValidRow(allPlayer, row)
    ensures MeListed(allPlayer, meId) ==>
              (CellForRow(allPlayer, meId, row).isHidden <==> HeightForRow(allPlayer, meId, row) == 0)
    ensures !MeListed(allPlayer, meId) ==>
              !CellForRow(allPlayer, meId, row).isHidden && HeightForRow(allPlayer, meId, row) == 0
  {
  }

  /** Pages after the first never change the table. */
  lemma OnlyFirstPageMatters(page: LeaderboardRes, rest: seq<LeaderboardRes>, meId: int, row: nat)
    requires row < |page.contents|
    ensures NumberOfRows([page] + rest) == |page.contents|
    ensures CellForRow([page] + rest, meId, row) == CellForRow([page], meId, row)
    ensures HeightForRow([page] + rest, meId, row) == HeightForRow([page], meId, row)
  {
  }
}

=== FILE: name_input_popup.dfy ===
/** The group owner's name popup: an edit is accepted only while the text
    stays within ten characters, the counter follows every accepted edit,
    and ending the edit saves a non-empty name as the group owner. */
module NameInputPopup {
  import opened Wrappers
  import Decimal

  const MaxLength: nat := 10

  /** `NSRange`: the characters `location ..< location + length`. */
  datatype Range = Range(location: nat, length: nat)

  /** The field's text and the counter label beside it. */
  datatype Popup = Popup(text: string, countLabel: string)

  /** One keystroke, paste or deletion, as the text field reports it. */
  datatype Edit = Edit(range: Range, replacement: string)

  predicate InText(text: string, r: Range) {
    r.location + r.length <= |text|
  }

  /** `replacingCharacters(in:with:)`. */
  function ReplaceRange(text: string, r: Range, replacement: string): (t: string)
    requires InText(text, r)
    ensures |t| == |text| - r.length + |replacement|
    ensures t[..r.location] == text[..r.location]
    ensures t[r.location..r.location + |replacement|] == replacement
    ensures t[r.location + |replacement|..] == text[r.location + r.length..]
  {
    text[..r.location] + replacement + text[r.location + r.length..]
  }

  /** The counter after an accepted edit: `%02d/%02d`. It reads back as
      the length out of ten, in five characters below 100. */
  function Counter(length: nat): (c: string)
    ensures |c| >= 5 && c[|c| - 3..] == "/10"
    ensures Decimal.AllDigits(c[..|c| - 3]) && Decimal.ParseDecimal(c[..|c| - 3]) == length
    ensures |c| == 5 <==> length < 100
  {
    var head := Decimal.Pad2(length);
    assert Decimal.ToDecimal(MaxLength) == "10";
    var c := head + "/" + Decimal.Pad2(MaxLength);
    assert c[..|c| - 3] == head;
    c
  }

  const InitialPopup: Popup := Popup("", "00/10")

  /** The counter agrees with the text. */
  predicate CounterMatches(p: Popup) {
    p.countLabel == Counter(|p.text|)
  }

  datatype Decision = Decision(accept: bool, countLabel: string)

  /** `textField(_:shouldChangeCharactersIn:replacementString:)`. */
  function ShouldChange(p: Popup, e: Edit): (d: Decision)
    requires InText(p.text, e.range)
    ensures d.accept <==> |p.text| - e.range.length + |e.replacement| <= MaxLength
    ensures d.accept ==> d.countLabel == Counter(|ReplaceRange(p.text, e.range, e.replacement)|)
    ensures !d.accept ==> d.countLabel == p.countLabel
  {
    var newLength := |ReplaceRange(p.text, e.range, e.replacement)|;
    if newLength <= MaxLength then Decision(true, Counter(newLength))
    else Decision(false, p.countLabel)
  }

  /** The popup after the field applies an edit it was allowed to make. */
  function ApplyEdit(p: Popup, e: Edit): (q: Popup)
    requires InText(p.text, e.range)
    ensures ShouldChange(p, e).accept ==> q.text == ReplaceRange(p.text, e.range, e.replacement)
    ensures ShouldChange(p, e).accept ==> q.countLabel == ShouldChange(p, e).countLabel
    ensures !ShouldChange(p, e).accept ==> q == p
  {
    var d := ShouldChange(p, e);
    if d.accept then Popup(ReplaceRange(p.text, e.range, e.replacement), d.countLabel) else p
  }

  /** A run of edits; `None` when a range falls outside the text, where
      `NSString` raises. */
  function ApplyEdits(p: Popup, edits: seq<Edit>): Option<Popup>
    decreases |edits|
  {
    if |edits| == 0 then Some(p)
    else if !InText(p.text, edits[0].range) then None
    else ApplyEdits(ApplyEdit(p, edits[0]), edits[1..])
  }

  /** The initial counter is the format's rendering of length zero. */
  lemma InitialCounterMatches()
    ensures CounterMatches(InitialPopup)
  {
    assert Decimal.ToDecimal(0) == "0";
    assert Decimal.ToDecimal(MaxLength) == "10";
  }

  /** A deletion never lengthens the text, so from a valid state it is
      always accepted. */
  lemma DeletionAccepted(p: Popup, r: Range)
    requires InText(p.text, r) && |p.text| <= MaxLength
    ensures ShouldChange(p, Edit(r, "")).accept
  {
  }

  /** One edit keeps the text within ten characters and the counter in step. */
  lemma ApplyEditKeepsInvariant(p: Popup, e: Edit)
    requires InText(p.text, e.range)
    requires |p.text| <= MaxLength && CounterMatches(p)
    ensures |ApplyEdit(p, e).text| <= MaxLength
    ensures CounterMatches(ApplyEdit(p, e))
  {
  }

  /** No run of edits takes a popup that starts within ten characters past
      ten, or leaves its counter out of step with its text. */
  lemma {:induction false} ApplyEditsKeepInvariant(p: Popup, edits: seq<Edit>)
    requires |p.text| <= MaxLength && CounterMatches(p)
    ensures ApplyEdits(p, edits).Some? ==>
              |ApplyEdits(p, edits).value.text| <= MaxLength && CounterMatches(ApplyEdits(p, edits).value)
    decreases |edits|
  {
    if |edits| > 0 && InText(p.text, edits[0].range) {
      ApplyEditKeepsInvariant(p, edits[0]);
      ApplyEditsKeepInvariant(ApplyEdit(p, edits[0]), edits[1..]);
    }
  }

  /** A name saved after any run of edits from the initial popup is
      non-empty and at most ten characters long. */
  lemma {:induction false} SavedOwnerNameWithinLimit(edits: seq<Edit>)
    requires ApplyEdits(InitialPopup, edits).Some?
    ensures var saved := EndEditing(Some(ApplyEdits(InitialPopup, edits).value.text), true);
            saved.Some? ==> 1 <= |saved.value| <= MaxLength
  {
    InitialCounterMatches();
    ApplyEditsKeepInvariant(InitialPopup, edits);
  }

  /** `textFieldDidEndEditing`: the owner name saved, if any. Only the name
      field saves, and only a present, non-empty text. */
  function EndEditing(text: Option<string>, isNameField: bool): (saved: Option<string>)
    ensures saved.Some? <==> isNameField && text.Some? && text.value != ""
    ensures saved.Some? ==> saved.value == text.value
  {
    if text.None? || text.value == "" then None
    else if isNameField then Some(text.value)
    else None
  }
}

=== FILE: player_reactor.dfy ===
/** The in-game player screen's reactor (GameResult/Reactor/PlayerReactor):
    four fetches, each wrapped into one mutation that replaces one field. */
module PlayerReactor {
  import opened Wrappers
  import opened PlayerRepository

  datatype State = State(
    playerData: seq<PlayerRes>,
    nicknameResult: Option<GuestNicknameRes>,
    addPlayerData: Option<AddPlayerRes>,
    allPlayer: seq<LeaderboardRes>)

  const InitialState: State := State([], None, None, [])

  datatype Action =
    | FetchResult(groupId: int, size: string)
    | ValidateNickname(groupId: int, nickname: string)
    | AddPlayer(groupId: int, nickName: string)
    | AllPlayerData(groupId: int, gameId: int)

  datatype Mutation =
    | SetPlayerData(playerData: seq<PlayerRes>)
    | SetNicknameResult(nicknameResult: GuestNicknameRes)
    | SetAddPlayer(result: AddPlayerRes)
    | SetAllPlayerData(allPlayer: seq<LeaderboardRes>)

  /** The use case the reactor calls; it is not part of this model, so its
      four answers are given as functions of the request arguments. */
  datatype UseCase = UseCase(
    fetchPlayerList: (int, string) -> Result<PlayerRes, NetworkError>,
    fetchValidateNickName: (int, string) -> Result<GuestNicknameRes, NetworkError>,
    fetchAddPlayer: (int, string) -> Result<AddPlayerRes, NetworkError>,
    fetchAllPlayer: (int, int) -> Result<LeaderboardRes, NetworkError>)

  /** What the observable created by `mutate` delivers: one mutation, or the
      error the use case threw. */
  datatype Emission = Next(mutation: Mutation) | Error(error: NetworkError)

  function Reduce(s: State, m: Mutation): (r: State)
    ensures r.playerData == (if m.SetPlayerData? then m.playerData else s.playerData)
    ensures r.nicknameResult == (if m.SetNicknameResult? then Some(m.nicknameResult) else s.nicknameResult)
    ensures r.addPlayerData == (if m.SetAddPlayer? then Some(m.result) else s.addPlayerData)
    ensures r.allPlayer == (if m.SetAllPlayerData? then m.allPlayer else s.allPlayer)
  {
    match m
    case SetPlayerData(d) => s.(playerData := d)
    case SetNicknameResult(n) => s.(nicknameResult := Some(n))
    case SetAddPlayer(a) => s.(addPlayerData := Some(a))
    case SetAllPlayerData(l) => s.(allPlayer := l)
  }

  /** The field a mutation writes. */
  function Field(m: Mutation): nat {
    match m
    case SetPlayerData(_) => 0
    case SetNicknameResult(_) => 1
    case SetAddPlayer(_) => 2
    case SetAllPlayerData(_) => 3
  }

  /** Applying a mutation twice is the same as applying it once. */
  lemma ReduceIdempotent(s: State, m: Mutation)
    ensures Reduce(Reduce(s, m), m) == Reduce(s, m)
  {
  }

  /** Mutations of different fields commute; of the same field, the later wins. */
  lemma ReduceCommutes(s: State, a: Mutation, b: Mutation)
    ensures Field(a) != Field(b) ==> Reduce(Reduce(s, a), b) == Reduce(Reduce(s, b), a)
    ensures Field(a) == Field(b) ==> Reduce(Reduce(s, a), b) == Reduce(s, b)
  {
  }

  /** Wraps a use-case answer: a result becomes one mutation, an error is
      passed on. */
  function Emit<T>(answer: Result<T, NetworkError>, wrap: T -> Mutation): (e: Emission)
    ensures e.Next? <==> answer.Success?
    ensures e.Next? ==> e.mutation == wrap(answer.value)
    ensures e.Error? ==> e.error == answer.error
  {
    match answer
    case Success(v) => Next(wrap(v))
    case Failure(err) => Error(err)
  }

  /** `mutate`: each action calls its use-case method with the action's own
      arguments; the two list results are wrapped in a one-element list. */
  function Mutate(a: Action, uc: UseCase): (e: Emission)
    ensures a.FetchResult? && uc.fetchPlayerList(a.groupId, a.size).Success? ==>
              e == Next(SetPlayerData([uc.fetchPlayerList(a.groupId, a.size).value]))
    ensures a.AllPlayerData? && uc.fetchAllPlayer(a.groupId, a.gameId).Success? ==>
              e == Next(SetAllPlayerData([uc.fetchAllPlayer(a.groupId, a.gameId).value]))
    ensures a.ValidateNickname? && uc.fetchValidateNickName(a.groupId, a.nickname).Success? ==>
              e == Next(SetNicknameResult(uc.fetchValidateNickName(a.groupId, a.nickname).value))
    ensures a.AddPlayer? && uc.fetchAddPlayer(a.groupId, a.nickName).Success? ==>
              e == Next(SetAddPlayer(uc.fetchAddPlayer(a.groupId, a.nickName).value))
    ensures e.Error? <==>
              match a
              case FetchResult(g, sz) => uc.fetchPlayerList(g, sz).Failure?
              case ValidateNickname(g, n) => uc.fetchValidateNickName(g, n).Failure?
              case AddPlayer(g, n) => uc.fetchAddPlayer(g, n).Failure?
              case AllPlayerData(g, gm) => uc.fetchAllPlayer(g, gm).Failure?
    ensures a.FetchResult? && uc.fetchPlayerList(a.groupId, a.size).Failure? ==>
              e == Error(uc.fetchPlayerList(a.groupId, a.size).error)
    ensures a.ValidateNickname? && uc.fetchValidateNickName(a.groupId, a.nickname).Failure? ==>
              e == Error(uc.fetchValidateNickName(a.groupId, a.nickname).error)
    ensures a.AddPlayer? && uc.fetchAddPlayer(a.groupId, a.nickName).Failure? ==>
              e == Error(uc.fetchAddPlayer(a.groupId, a.nickName).error)
    ensures a.AllPlayerData? && uc.fetchAllPlayer(a.groupId, a.gameId).Failure? ==>
              e == Error(uc.fetchAllPlayer(a.groupId, a.gameId).error)
  {
    match a
    case FetchResult(g, sz) => Emit(uc.fetchPlayerList(g, sz), (r: PlayerRes) => SetPlayerData([r]))
    case ValidateNickname(g, n) => Emit(uc.fetchValidateNickName(g, n), (r: GuestNicknameRes) => SetNicknameResult(r))
    case AddPlayer(g, n) => Emit(uc.fetchAddPlayer(g, n), (r: AddPlayerRes) => SetAddPlayer(r))
    case AllPlayerData(g, gm) => Emit(uc.fetchAllPlayer(g, gm), (r: LeaderboardRes) => SetAllPlayerData([r]))
  }

  /** A successful action changes exactly the field its mutation writes. */
  lemma ActionTouchesOneField(s: State, a: Action, uc: UseCase)
    requires Mutate(a, uc).Next?
    ensures var r := Reduce(s, Mutate(a, uc).mutation);
            && (a.FetchResult? ==> |r.playerData| == 1)
            && (a.ValidateNickname? ==> r.nicknameResult.Some?)
            && (a.AddPlayer? ==> r.addPlayerData.Some?)
            && (a.AllPlayerData? ==> |r.allPlayer| == 1)
            && (!a.FetchResult? ==> r.playerData == s.playerData)
            && (!a.ValidateNickname? ==> r.nicknameResult == s.nicknameResult)
            && (!a.AddPlayer? ==> r.addPlayerData == s.addPlayerData)
            && (!a.AllPlayerData? ==> r.allPlayer == s.allPlayer)
  {
  }
}

/** The earlier player-list reactor (GameResult/PlayerReactor): one action,
    one mutation, one field. */
module GameResultPlayerReactor {
  import opened Wrappers
  import opened PlayerRepository

  datatype State = State(playerData: seq<PlayerRes>)

  const InitialState: State := State([])

  datatype Action = FetchResult(groupId: int, size: string)

  datatype Mutation = SetPlayerData(playerData: seq<PlayerRes>)

  datatype Emission = Next(mutation: Mutation) | Error(error: NetworkError)

  function Reduce(s: State, m: Mutation): (r: State)
    ensures r.playerData == m.playerData
  {
    s.(playerData := m.playerData)
  }

  /** The reducer forgets the previous state: the same mutation twice is once,
      and the start state makes no difference. */
  lemma ReduceIdempotent(s: State, t: State, m: Mutation)
    ensures Reduce(Reduce(s, m), m) == Reduce(s, m)
    ensures Reduce(s, m) == Reduce(t, m)
  {
  }

  /** `gameListResult`: the use case is asked with the action's own group id
      and size; success is one mutation carrying a one-element list. */
  function Mutate(a: Action, fetchPlayerList: (int, string) -> Result<PlayerRes, NetworkError>): (e: Emission)
    ensures e.Next? <==> fetchPlayerList(a.groupId, a.size).Success?
    ensures e.Next? ==> |e.mutation.playerData| == 1
                        && e.mutation.playerData[0] == fetchPlayerList(a.groupId, a.size).value
    ensures e.Error? ==> e.error == fetchPlayerList(a.groupId, a.size).error
  {
    match fetchPlayerList(a.groupId, a.size)
    case Success(r) => Next(SetPlayerData([r]))
    case Failure(err) => Error(err)
  }

  /** A successful fetch followed by the reducer leaves exactly the fetched
      player in the state. */
  lemma FetchThenReduce(s: State, a: Action, fetchPlayerList: (int, string) -> Result<PlayerRes, NetworkError>)
    requires fetchPlayerList(a.groupId, a.size).Success?
    ensures Reduce(s, Mutate(a, fetchPlayerList).mutation).playerData == [fetchPlayerList(a.groupId, a.size).value]
  {
  }
}

=== FILE: player_repository.dfy ===
/** The game/player repository: the wire records of the four player
    requests, their conversion to domain records, and the rule that a reply
    without a payload fails with `NetworkError.noExist`. The network manager
    is not part of this model: each request takes the reply it received. */
module PlayerRepository {
  import opened Wrappers

  /** `NetworkError.noExist`, or any other error the network layer throws. */
  datatype NetworkError = NoExist | Other(code: int)

  /** What `asyncRequest` gives back: a thrown error, or a reply whose
      `value` may be missing. */
  type Reply<T> = Result<Option<T>, NetworkError>

  // --- wire records -----------------------------------------------------------

  datatype PlayerItemDTO = PlayerItemDTO(id: int, role: string, nickname: string, level: int)

  datatype PlayerDTO = PlayerDTO(contents: seq<PlayerItemDTO>, cursor: int, hasNext: bool)

  datatype GuestNicknameDTO = GuestNicknameDTO(isAvailable: bool, reason: Option<string>)

  datatype AddPlayerDTO = AddPlayerDTO

  // --- domain records ---------------------------------------------------------

  datatype PlayerItem = PlayerItem(id: int, role: string, nickname: string, level: int)

  datatype PlayerRes = PlayerRes(contents: seq<PlayerItem>, cursor: int, hasNext: bool)

  datatype GuestNicknameRes = GuestNicknameRes(isAvailable: bool, reason: string)

  datatype AddPlayerRes = AddPlayerRes

  /** One leaderboard entry, with the fields the member screen reads. */
  datatype LeaderboardPlayer = LeaderboardPlayer(userId: int, role: string, nickname: string)

  /** One page of the game leaderboard. */
  datatype LeaderboardRes = LeaderboardRes(contents: seq<LeaderboardPlayer>)

  // --- conversions ------------------------------------------------------------

  function ItemToDomain(d: PlayerItemDTO): PlayerItem {
    PlayerItem(d.id, d.role, d.nickname, d.level)
  }

  function ItemFromDomain(p: PlayerItem): PlayerItemDTO {
    PlayerItemDTO(p.id, p.role, p.nickname, p.level)
  }

  /** `PlayerDTO.toDomain`: the player list is mapped entry by entry. */
  function PlayerToDomain(dto: PlayerDTO): (r: PlayerRes)
    ensures |r.contents| == |dto.contents|
    ensures forall i :: 0 <= i < |r.contents| ==>
              r.contents[i].id == dto.contents[i].id && r.contents[i].role == dto.contents[i].role
              && r.contents[i].nickname == dto.contents[i].nickname && r.contents[i].level == dto.contents[i].level
    ensures r.cursor == dto.cursor && r.hasNext == dto.hasNext
  {
    PlayerRes(seq(|dto.contents|, i requires 0 <= i < |dto.contents| => ItemToDomain(dto.contents[i])),
              dto.cursor, dto.hasNext)
  }

  /** The inverse of `PlayerToDomain`, used to state that it loses nothing. */
  function PlayerFromDomain(res: PlayerRes): PlayerDTO {
    PlayerDTO(seq(|res.contents| , i requires 0 <= i < |res.contents| => ItemFromDomain(res.contents[i])),
              res.cursor, res.hasNext)
  }

  /** The conversion is a bijection: nothing is dropped or reordered. */
  lemma PlayerToDomainRoundTrip(dto: PlayerDTO, res: PlayerRes)
    ensures PlayerFromDomain(PlayerToDomain(dto)) == dto
    ensures PlayerToDomain(PlayerFromDomain(res)) == res
  {
    assert PlayerFromDomain(PlayerToDomain(dto)).contents == dto.contents;
    assert PlayerToDomain(PlayerFromDomain(res)).contents == res.contents;
  }

  /** `GuestNicknameDTO.toDomain`: a missing reason becomes "". */
  function GuestNicknameToDomain(dto: GuestNicknameDTO): (r: GuestNicknameRes)
    ensures r.isAvailable == dto.isAvailable
    ensures r.reason == dto.reason.GetOr("")
    ensures dto.reason.Some? ==> r.reason == dto.reason.value
  {
    GuestNicknameRes(dto.isAvailable, if dto.reason.Some? then dto.reason.value else "")
  }

  /** A missing reason and an empty reason are indistinguishable afterwards;
      any other reason is kept apart. */
  lemma GuestNicknameReasonCollapse(a: GuestNicknameDTO, b: GuestNicknameDTO)
    requires a.isAvailable == b.isAvailable
    ensures GuestNicknameToDomain(a) == GuestNicknameToDomain(b) <==>
            a.reason.GetOr("") == b.reason.GetOr("")
  {
  }

  /** `AddPlayerDTO.toDomain`: the payload carries nothing, so every reply
      gives the same empty record. */
  function AddPlayerToDomain(dto: AddPlayerDTO): AddPlayerRes {
    AddPlayerRes
  }

  // --- requests ---------------------------------------------------------------

  /** The shared shape of the four requests: a thrown error is rethrown as it
      is, a reply without a value throws `noExist`, and a value is converted. */
  function Unwrap<D, E>(reply: Reply<D>, toDomain: D -> E): (r: Result<E, NetworkError>)
    ensures r.Success? <==> reply.Success? && reply.value.Some?
    ensures r.Success? ==> r.value == toDomain(reply.value.value)
    ensures reply.Failure? ==> r == Failure(reply.error)
    ensures reply.Success? && reply.value.None? ==> r == Failure(NoExist)
  {
    match reply
    case Failure(e) => Failure(e)
    case Success(None) => Failure(NoExist)
    case Success(Some(data)) => Success(toDomain(data))
  }

  /** `noExist` is reported exactly when the payload is missing or the
      network layer itself threw `noExist`. */
  lemma NoExistExactly<D, E>(reply: Reply<D>, toDomain: D -> E)
    ensures Unwrap(reply, toDomain) == Failure(NoExist) <==>
            reply == Success(None) || reply == Failure(NoExist)
  {
  }

  function RequestPlayerList(reply: Reply<PlayerDTO>): (r: Result<PlayerRes, NetworkError>)
    ensures r.Success? <==> reply.Success? && reply.value.Some?
    ensures r.Success? ==> r.value == PlayerToDomain(reply.value.value)
    ensures reply.Failure? ==> r == Failure(reply.error)
  {
    Unwrap(reply, PlayerToDomain)
  }

  function RequestValidateNickname(reply: Reply<GuestNicknameDTO>): (r: Result<GuestNicknameRes, NetworkError>)
    ensures r.Success? <==> reply.Success? && reply.value.Some?
    ensures r.Success? ==> r.value == GuestNicknameToDomain(reply.value.value)
    ensures reply.Failure? ==> r == Failure(reply.error)
  {
    Unwrap(reply, GuestNicknameToDomain)
  }

  function RequestAddPlayer(reply: Reply<AddPlayerDTO>): (r: Result<AddPlayerRes, NetworkError>)
    ensures r.Success? <==> reply.Success? && reply.value.Some?
    ensures r.Success? ==> r.value == AddPlayerToDomain(reply.value.value)
    ensures reply.Failure? ==> r == Failure(reply.error)
  {
    Unwrap(reply, AddPlayerToDomain)
  }

  /** The leaderboard record's own conversion is not part of this model, so
      it is a parameter. */
  function RequestAllPlayerList<D>(reply: Reply<D>, toDomain: D -> LeaderboardRes): (r: Result<LeaderboardRes, NetworkError>)
    ensures r.Success? <==> reply.Success? && reply.value.Some?
    ensures r.Success? ==> r.value == toDomain(reply.value.value)
    ensures reply.Failure? ==> r == Failure(reply.error)
  {
    Unwrap(reply, toDomain)
  }

  /** Every one of the four requests fails with `noExist` on a reply
      without a value. */
  lemma MissingValueIsNoExist<D>(toDomain: D -> LeaderboardRes)
    ensures RequestPlayerList(Success(None)) == Failure(NoExist)
    ensures RequestValidateNickname(Success(None)) == Failure(NoExist)
    ensures RequestAddPlayer(Success(None)) == Failure(NoExist)
    ensures RequestAllPlayerList(Success(None), toDomain) == Failure(NoExist)
  {
  }
}

=== FILE: sequences.dfy ===
/** Order-preserving selection, shared by the list filters of the model. */
module Sequences {

  /** `a` can be obtained from `b` by deleting elements. */
  predicate IsSubsequence<T(==)>(a: seq<T>, b: seq<T>)
    decreases |b|
  {
    if |a| == 0 then true
    else if |b| == 0 then false
    else (a[0] == b[0] && IsSubsequence(a[1..], b[1..])) || IsSubsequence(a, b[1..])
  }
}

=== FILE: terms_agreement_item.dfy ===
/** The label of one row on the terms screen: a required/optional prefix,
    a space, and the term's title. */
module TermsAgreementItem {
  import opened Wrappers

  datatype State = State(title: string, required: bool)

  const RequiredPrefix: string := "(필수)"
  const OptionalPrefix: string := "(선택)"

  function Prefix(required: bool): string {
    if required then RequiredPrefix else OptionalPrefix
  }

  /** `bind(state:)`. */
  function Label(s: State): (text: string)
    ensures |text| == |Prefix(s.required)| + 1 + |s.title|
    ensures text[..|Prefix(s.required)|] == Prefix(s.required)
    ensures text[|Prefix(s.required)|] == ' '
    ensures text[|Prefix(s.required)| + 1..] == s.title
  {
    Prefix(s.required) + " " + s.title
  }

  /** Reads a label back into the state it shows. */
  function ParseLabel(text: string): Option<State> {
    if |text| >= 5 && text[4] == ' ' && text[..4] == RequiredPrefix then Some(State(text[5..], true))
    else if |text| >= 5 && text[4] == ' ' && text[..4] == OptionalPrefix then Some(State(text[5..], false))
    else None
  }

  /** The two prefixes differ, so a label determines both its title and
      whether the term is required. */
  lemma LabelRoundTrip(s: State)
    ensures ParseLabel(Label(s)) == Some(s)
  {
    assert |RequiredPrefix| == 4 && |OptionalPrefix| == 4;
    assert RequiredPrefix != OptionalPrefix by {
      assert RequiredPrefix[1] != OptionalPrefix[1];
    }
  }

  /** Different states never share a label. */
  lemma LabelInjective(a: State, b: State)
    ensures Label(a) == Label(b) ==> a == b
  {
    LabelRoundTrip(a);
    LabelRoundTrip(b);
  }
}

=== FILE: terms_agreement_reactor.dfy ===
/** The terms-agreement screen's reducer: the list of terms with a per-term
    check mark, the derived "all agreed" flag, and the agree/disagree
    partition submitted on registration. */
module TermsAgreementReactor {
  import opened Wrappers
  import TermsEntity
  import TermsAgreementEntity
  import opened Sequences

  datatype Term = Term(title: string, isRequired: bool, url: string, isChecked: bool, code: string)

  datatype State = State(terms: seq<Term>, isAllAgreemented: bool)

  /** Table rows are addressed by `IndexPath`; only the row/item number matters. */
  datatype Action =
    | ViewDidLoad
    | SelectDetail(row: nat)
    | SelectCheck(item: nat)
    | SelectAllAgreement
    | SelectRegister

  datatype Mutation =
    | SetTerms(newTerms: seq<Term>)
    | UpdateCheckStatus(index: nat)
    | UpdateAllAgreement

  /** What an action asks of the use case or the coordinator. */
  datatype Command =
    | FetchTerms
    | ShowTerms(url: string)
    | SubmitAgreement(req: TermsAgreementEntity.Req)

  /** The mutations an action emits and the command it issues. */
  datatype Reaction = Reaction(mutations: seq<Mutation>, command: Option<Command>)

  const InitialState: State := State([], false)

  predicate AllChecked(terms: seq<Term>) {
    forall i :: 0 <= i < |terms| ==> terms[i].isChecked
  }

  /** The flag agrees with the list it is derived from. */
  predicate Consistent(s: State) {
    s.isAllAgreemented == AllChecked(s.terms)
  }

  /** Same term apart from its check mark. */
  predicate SameTerm(a: Term, b: Term) {
    a.title == b.title && a.isRequired == b.isRequired && a.url == b.url && a.code == b.code
  }

  // ---------------------------------------------------------------------------
  // Loading

  /** The domain record a screen term was built from. */
  function ToEntity(t: Term): TermsEntity.Term {
    TermsEntity.Term(t.code, t.title, t.url, t.isRequired)
  }

  /** `toState`: every fetched term enters the screen unchecked. */
  function ToState(entities: seq<TermsEntity.Term>): (terms: seq<Term>)
    ensures |terms| == |entities|
    ensures forall i :: 0 <= i < |terms| ==> !terms[i].isChecked
    ensures forall i :: 0 <= i < |terms| ==> ToEntity(terms[i]) == entities[i]
  {
    seq(|entities|, i requires 0 <= i < |entities| =>
      Term(entities[i].title, entities[i].isRequired, entities[i].url, false, entities[i].code))
  }

  /** Dropping the check marks from a loaded list gives back the fetched list. */
  lemma ToStateRoundTrip(entities: seq<TermsEntity.Term>)
    ensures seq(|ToState(entities)|, i requires 0 <= i < |ToState(entities)| => ToEntity(ToState(entities)[i])) == entities
  {
  }

  /** The terms stream becomes one `setTerms` mutation. */
  function OnTermsList(response: seq<TermsEntity.Term>): (ms: seq<Mutation>)
    ensures |ms| == 1 && ms[0].SetTerms?
    ensures ms[0].newTerms == ToState(response)
    ensures |ms[0].newTerms| == |response|
    ensures !AllChecked(ms[0].newTerms) <==> |response| > 0
  {
    var terms := ToState(response);
    assert |response| > 0 ==> !terms[0].isChecked;
    [SetTerms(terms)]
  }

  // ---------------------------------------------------------------------------
  // Reducer

  /** `updateAgreementStatus`: flips one term and recomputes the flag. */
  function UpdateAgreementStatus(terms: seq<Term>, index: nat): (s: State)
    requires index < |terms|
    ensures |s.terms| == |terms|
    ensures s.terms[index].isChecked == !terms[index].isChecked
    ensures SameTerm(s.terms[index], terms[index])
    ensures forall j :: 0 <= j < |terms| && j != index ==> s.terms[j] == terms[j]
    ensures s.isAllAgreemented <==> AllChecked(s.terms)
  {
    var updated := terms[index := terms[index].(isChecked := !terms[index].isChecked)];
    State(updated, !exists j :: 0 <= j < |updated| && !updated[j].isChecked)
  }

  /** `updateAllAgreementStatus`: every term takes the negation of the old flag. */
  function UpdateAllAgreementStatus(s: State): (r: State)
    ensures |r.terms| == |s.terms|
    ensures forall i :: 0 <= i < |r.terms| ==> SameTerm(r.terms[i], s.terms[i])
    ensures forall i :: 0 <= i < |r.terms| ==> r.terms[i].isChecked == !s.isAllAgreemented
    ensures r.isAllAgreemented == !s.isAllAgreemented
  {
    State(
      seq(|s.terms|, i requires 0 <= i < |s.terms| => s.terms[i].(isChecked := !s.isAllAgreemented)),
      !s.isAllAgreemented)
  }

  /** An index mutation must address an existing row (Swift traps otherwise). */
  predicate ValidMutation(s: State, m: Mutation) {
    m.UpdateCheckStatus? ==> m.index < |s.terms|
  }

  function Reduce(s: State, m: Mutation): (r: State)
    requires ValidMutation(s, m)
    ensures m.SetTerms? ==> r.terms == m.newTerms && r.isAllAgreemented == s.isAllAgreemented
    ensures m.UpdateCheckStatus? ==> r == UpdateAgreementStatus(s.terms, m.index) && Consistent(r)
    ensures m.UpdateAllAgreement? ==> r == UpdateAllAgreementStatus(s) && r.isAllAgreemented != s.isAllAgreemented
    ensures |r.terms| == (if m.SetTerms? then |m.newTerms| else |s.terms|)
  {
    match m
    case SetTerms(terms) => s.(terms := terms)
    case UpdateCheckStatus(index) => UpdateAgreementStatus(s.terms, index)
    case UpdateAllAgreement => UpdateAllAgreementStatus(s)
  }

  /** The initial screen has no terms and the flag down; the flag is not the
      vacuous "every term is checked" of the empty list. */
  lemma InitialStateFacts()
    ensures InitialState.terms == [] && !InitialState.isAllAgreemented
    ensures !Consistent(InitialState)
  {
  }

  /** `setTerms` keeps a raised flag even when every new term is unchecked. */
  lemma SetTermsKeepsStaleFlag(t: Term)
    ensures var s := State([t.(isChecked := true)], true);
            var r := Reduce(s, SetTerms([t.(isChecked := false)]));
            r.isAllAgreemented && !AllChecked(r.terms)
  {
    var s := State([t.(isChecked := true)], true);
    var r := Reduce(s, SetTerms([t.(isChecked := false)]));
    assert !r.terms[0].isChecked;
  }

  /** Toggling one term twice restores the list; the flag is then recomputed,
      so the state comes back exactly when it was consistent. */
  lemma CheckStatusTwice(s: State, i: nat)
    requires i < |s.terms|
    ensures Reduce(Reduce(s, UpdateCheckStatus(i)), UpdateCheckStatus(i)).terms == s.terms
    ensures Reduce(Reduce(s, UpdateCheckStatus(i)), UpdateCheckStatus(i)) == s <==> Consistent(s)
  {
    var r1 := Reduce(s, UpdateCheckStatus(i));
    var r2 := Reduce(r1, UpdateCheckStatus(i));
    assert r2.terms == s.terms by {
      assert forall j :: 0 <= j < |s.terms| ==> r2.terms[j] == s.terms[j];
    }
  }

  /** Toggling "all" twice returns the flag, and leaves every term checked
      exactly when the flag was originally up. */
  lemma AllAgreementTwice(s: State)
    ensures var r := Reduce(Reduce(s, UpdateAllAgreement), UpdateAllAgreement);
            && r.isAllAgreemented == s.isAllAgreemented
            && |r.terms| == |s.terms|
            && (forall i :: 0 <= i < |r.terms| ==> SameTerm(r.terms[i], s.terms[i]))
            && (forall i :: 0 <= i < |r.terms| ==> r.terms[i].isChecked == s.isAllAgreemented)
  {
  }

  /** From a consistent, non-empty list, "all" checks everything when some term
      was unchecked and unchecks everything when all were checked. The empty
      list is excluded because there the flag alone flips: see
      `AllAgreementOnEmptyList`. */
  lemma AllAgreementPreservesConsistency(s: State)
    requires Consistent(s) && |s.terms| > 0
    ensures Consistent(Reduce(s, UpdateAllAgreement))
    ensures AllChecked(Reduce(s, UpdateAllAgreement).terms) <==> !AllChecked(s.terms)
  {
    var r := Reduce(s, UpdateAllAgreement);
    if s.isAllAgreemented {
      assert !r.terms[0].isChecked;
    }
  }

  /** On an empty list the empty list counts as all checked, yet "all" from
      a set flag clears it, so consistency is lost. */
  lemma AllAgreementOnEmptyList()
    ensures var s := State([], true);
            && Consistent(s)
            && Reduce(s, UpdateAllAgreement) == State([], false)
            && !Consistent(Reduce(s, UpdateAllAgreement))
  {
  }

  // ---------------------------------------------------------------------------
  // Submission

  function Codes(terms: seq<Term>): (codes: seq<string>)
    ensures |codes| == |terms|
    ensures forall i :: 0 <= i < |terms| ==> codes[i] == terms[i].code
  {
    seq(|terms|, i requires 0 <= i < |terms| => terms[i].code)
  }

  /** `Codes` of a list with a head term. */
  lemma CodesCons(t: Term, rest: seq<Term>)
    ensures Codes([t] + rest) == [t.code] + Codes(rest)
  {
    var whole, tail := Codes([t] + rest), Codes(rest);
    assert |whole| == |[t.code] + tail|;
    forall i | 0 <= i < |whole|
      ensures whole[i] == ([t.code] + tail)[i]
    {
      if i > 0 {
        assert ([t] + rest)[i] == rest[i - 1];
      }
    }
  }

  /** The terms whose check mark is `checked`, in list order: a reference
      definition of what `filter` keeps. */
  function Marked(terms: seq<Term>, checked: bool): (sub: seq<Term>)
    ensures IsSubsequence(sub, terms)
    ensures forall t :: multiset(sub)[t] == if t.isChecked == checked then multiset(terms)[t] else 0
    decreases |terms|
  {
    if |terms| == 0 then []
    else
      var rest := Marked(terms[1..], checked);
      assert terms == [terms[0]] + terms[1..];
      if terms[0].isChecked == checked then
        assert ([terms[0]] + rest)[1..] == rest;
        [terms[0]] + rest
      else rest
  }

  /** The codes, in list order, of the terms whose check mark is `checked`. */
  /** The codes, in list order, of the terms whose check mark is `checked`,
      in one pass; `CodesWhereIsMarkedCodes` ties it to `filter` then `map`. */
  function CodesWhere(terms: seq<Term>, checked: bool): (codes: seq<string>)
    ensures |codes| <= |terms|
    decreases |terms|
  {
    if |terms| == 0 then []
    else (if terms[0].isChecked == checked then [terms[0].code] else []) + CodesWhere(terms[1..], checked)
  }

  /** The request sent by `agreeTerms`: the codes of the checked terms and of
      the unchecked terms, each in term order. */
  function Submission(terms: seq<Term>): (req: TermsAgreementEntity.Req)
    ensures req.agreeList == Codes(Marked(terms, true))
    ensures req.disagreeList == Codes(Marked(terms, false))
  {
    CodesWhereIsMarkedCodes(terms, true);
    CodesWhereIsMarkedCodes(terms, false);
    TermsAgreementEntity.Req(CodesWhere(terms, true), CodesWhere(terms, false))
  }

  /** Every term lands in exactly one of the two lists. */
  lemma {:induction false} PartitionCounts(terms: seq<Term>)
    ensures |Submission(terms).agreeList| + |Submission(terms).disagreeList| == |terms|
    ensures multiset(Submission(terms).agreeList) + multiset(Submission(terms).disagreeList)
            == multiset(Codes(terms))
  {
    CodesWherePartition(terms);
    var agree, disagree := CodesWhere(terms, true), CodesWhere(terms, false);
    assert Submission(terms) == TermsAgreementEntity.Req(agree, disagree);
    calc {
      |agree| + |disagree|;
      |multiset(agree)| + |multiset(disagree)|;
      |multiset(agree) + multiset(disagree)|;
      |multiset(Codes(terms))|;
      |Codes(terms)|;
    }
  }

  /** The two one-pass lists together hold every code, with multiplicity. */
  lemma {:induction false} CodesWherePartition(terms: seq<Term>)
    ensures multiset(CodesWhere(terms, true)) + multiset(CodesWhere(terms, false)) == multiset(Codes(terms))
    decreases |terms|
  {
    if |terms| > 0 {
      CodesWherePartition(terms[1..]);
      assert terms == [terms[0]] + terms[1..];
      CodesCons(terms[0], terms[1..]);
    }
  }

  /** A code is in the list for `checked` iff some term with that mark carries it. */
  lemma {:induction false} CodesWhereMembership(terms: seq<Term>, checked: bool, c: string)
    ensures c in CodesWhere(terms, checked) <==>
            exists i :: 0 <= i < |terms| && terms[i].code == c && terms[i].isChecked == checked
    decreases |terms|
  {
    if |terms| > 0 {
      CodesWhereMembership(terms[1..], checked, c);
      if exists i :: 0 <= i < |terms| && terms[i].code == c && terms[i].isChecked == checked {
        var i :| 0 <= i < |terms| && terms[i].code == c && terms[i].isChecked == checked;
        if i > 0 {
          assert terms[1..][i - 1] == terms[i];
        }
      }
      if exists i :: 0 <= i < |terms[1..]| && terms[1..][i].code == c && terms[1..][i].isChecked == checked {
        var i :| 0 <= i < |terms[1..]| && terms[1..][i].code == c && terms[1..][i].isChecked == checked;
        assert terms[i + 1] == terms[1..][i];
      }
    }
  }

  /** With distinct codes, each code is submitted as agreed or as disagreed,
      never both, according to its check mark. */
  lemma PartitionExact(terms: seq<Term>, i: nat)
    requires forall j, k :: 0 <= j < k < |terms| ==> terms[j].code != terms[k].code
    requires i < |terms|
    ensures terms[i].code in Submission(terms).agreeList <==> terms[i].isChecked
    ensures terms[i].code in Submission(terms).disagreeList <==> !terms[i].isChecked
  {
    CodesWhereMembership(terms, true, terms[i].code);
    CodesWhereMembership(terms, false, terms[i].code);
  }

  /** Both lists keep the order of the term list. This is a corollary of
      `CodesWhereIsMarkedCodes` and `Marked`'s subsequence clause, proved here
      directly. */
  lemma {:induction false} CodesWhereOrdered(terms: seq<Term>, checked: bool)
    ensures IsSubsequence(CodesWhere(terms, checked), Codes(terms))
    decreases |terms|
  {
    if |terms| > 0 {
      var rest := CodesWhere(terms[1..], checked);
      CodesWhereOrdered(terms[1..], checked);
      assert Codes(terms)[1..] == Codes(terms[1..]);
      if terms[0].isChecked == checked {
        assert CodesWhere(terms, checked) == [terms[0].code] + rest;
        assert ([terms[0].code] + rest)[1..] == rest;
      } else {
        assert CodesWhere(terms, checked) == rest;
      }
    }
  }

  /** Each one-pass list is exactly the codes of the terms with that mark,
      in term order, as `filter` then `map` builds it. */
  lemma {:induction false} CodesWhereIsMarkedCodes(terms: seq<Term>, checked: bool)
    ensures CodesWhere(terms, checked) == Codes(Marked(terms, checked))
    decreases |terms|
  {
    if |terms| > 0 {
      CodesWhereIsMarkedCodes(terms[1..], checked);
      if terms[0].isChecked == checked {
        CodesCons(terms[0], Marked(terms[1..], checked));
      }
    }
  }

  /** `isRequired` plays no part in what is submitted. */
  lemma {:induction false} SubmissionIgnoresRequired(a: seq<Term>, b: seq<Term>)
    requires |a| == |b|
    requires forall i :: 0 <= i < |a| ==> a[i].code == b[i].code && a[i].isChecked == b[i].isChecked
    ensures Submission(a) == Submission(b)
    decreases |a|
  {
    if |a| > 0 {
      SubmissionIgnoresRequired(a[1..], b[1..]);
    }
  }

  /** Terms A (required, unchecked) and B (optional, checked) submit agree
      ["B"] and disagree ["A"]. */
  lemma SubmissionExample()
    ensures Submission([Term("", true, "", false, "A"), Term("", false, "", true, "B")])
            == TermsAgreementEntity.Req(["B"], ["A"])
  {
    var ts := [Term("", true, "", false, "A"), Term("", false, "", true, "B")];
    assert ts[1..] == [Term("", false, "", true, "B")];
    assert ts[1..][1..] == [];
  }

  // ---------------------------------------------------------------------------
  // Actions

  predicate ValidAction(s: State, a: Action) {
    a.SelectDetail? ==> a.row < |s.terms|
  }

  /** `mutate`: only the two selection actions reach the reducer; loading,
      detail and registration are commands, and registration is never
      withheld, whatever the required terms' marks. */
  function Mutate(s: State, a: Action): (r: Reaction)
    requires ValidAction(s, a)
    ensures |r.mutations| <= 1
    ensures |r.mutations| == 1 <==> a.SelectCheck? || a.SelectAllAgreement?
    ensures r.command.Some? <==> |r.mutations| == 0
    ensures a.SelectCheck? ==> r.mutations == [UpdateCheckStatus(a.item)] && r.command.None?
    ensures a.SelectAllAgreement? ==> r.mutations == [UpdateAllAgreement] && r.command.None?
    ensures a.ViewDidLoad? ==> r.command == Some(FetchTerms)
    ensures a.SelectDetail? ==> r.command == Some(ShowTerms(s.terms[a.row].url))
    ensures a.SelectRegister? ==> r.command == Some(SubmitAgreement(Submission(s.terms)))
  {
    match a
    case ViewDidLoad => Reaction([], Some(FetchTerms))
    case SelectDetail(row) => Reaction([], Some(ShowTerms(s.terms[row].url)))
    case SelectCheck(item) => Reaction([UpdateCheckStatus(item)], None)
    case SelectAllAgreement => Reaction([UpdateAllAgreement], None)
    case SelectRegister => Reaction([], Some(SubmitAgreement(Submission(s.terms))))
  }

  /** The screen the agreement reply leads to. */
  datatype Destination = NicknameSetting

  /** The agreement reply emits no mutation; it navigates to the nickname
      screen exactly when the submission was accepted, and an error reply
      does nothing. */
  function OnAgreeResult(accepted: bool): (r: (seq<Mutation>, Option<Destination>))
    ensures r.0 == []
    ensures r.1.Some? <==> accepted
  {
    ([], if accepted then Some(NicknameSetting) else None)
  }
}

=== FILE: test_reactor.dfy ===
/** The developer test screen's reactor: one string of state, set from the
    test endpoint's text or from the Apple login result. */
module TestReactor {
  import opened Wrappers

  datatype State = State(result: string)

  const InitialState: State := State("")

  datatype Action = TestAPI | Apple | Google | Kakao

  datatype Mutation = SetLoginResult(result: string)

  datatype Provider = AppleProvider | GoogleProvider | KakaoProvider

  /** The use-case call an action starts. */
  datatype Command = FetchTestAPI | SignIn(provider: Provider)

  function Reduce(s: State, m: Mutation): (r: State)
    ensures r.result == m.result
  {
    s.(result := m.result)
  }

  /** A mutation's outcome does not depend on the state before it. */
  lemma ReduceForgetsState(s: State, t: State, m: Mutation)
    ensures Reduce(s, m) == Reduce(t, m) == State(m.result)
    ensures Reduce(Reduce(s, m), m) == Reduce(s, m)
  {
  }

  /** `mutation(result:)`: the login flag becomes "success" or "fail". */
  function LoginResultMutation(succeeded: bool): (m: Mutation)
    ensures m.result == "success" <==> succeeded
    ensures m.result == "fail" <==> !succeeded
  {
    if succeeded then SetLoginResult("success") else SetLoginResult("fail")
  }

  /** `transform`: only the Apple use case's results are merged into the
      mutation stream; Google and Kakao results are dropped. */
  function OnLoginResult(source: Provider, succeeded: bool): (m: Option<Mutation>)
    ensures m.Some? <==> source == AppleProvider
    ensures m.Some? ==> m.value == LoginResultMutation(succeeded)
  {
    if source == AppleProvider then Some(LoginResultMutation(succeeded)) else None
  }

  /** A Google or Kakao login result never changes the state. */
  lemma OnlyAppleChangesResult(s: State, source: Provider, succeeded: bool)
    ensures source != AppleProvider ==> OnLoginResult(source, succeeded).None?
    ensures source == AppleProvider ==>
              Reduce(s, OnLoginResult(source, succeeded).value).result == (if succeeded then "success" else "fail")
  {
  }

  /** `mutate`: sign-in actions only start their use case; the test call's
      reply text, when it arrives, becomes the result. An error inside the
      test call's task is dropped, so it emits nothing. */
  function Mutate(a: Action, testReply: Result<string, int>): (r: (Command, seq<Mutation>))
    ensures a != TestAPI ==> r.1 == []
    ensures a == Apple ==> r.0 == SignIn(AppleProvider)
    ensures a == Google ==> r.0 == SignIn(GoogleProvider)
    ensures a == Kakao ==> r.0 == SignIn(KakaoProvider)
    ensures a == TestAPI ==> r.0 == FetchTestAPI
    ensures a == TestAPI ==> (r.1 != [] <==> testReply.Success?)
    ensures a == TestAPI && testReply.Success? ==> r.1 == [SetLoginResult(testReply.value)]
  {
    match a
    case TestAPI => (FetchTestAPI, if testReply.Success? then [SetLoginResult(testReply.value)] else [])
    case Apple => (SignIn(AppleProvider), [])
    case Google => (SignIn(GoogleProvider), [])
    case Kakao => (SignIn(KakaoProvider), [])
  }
}

=== FILE: wrappers.dfy ===
/** Optional values and success/failure results shared by every module of the
    model. Swift's `T?` becomes `Option<T>`; a `throws` function becomes a
    function returning `Result<T, E>`. */
module Wrappers {

  datatype Option<+T> = None | Some(value: T) {

    /** Swift's `??` operator. */
    function GetOr(default: T): T {
      match this
      case Some(v) => v
      case None => default
    }
  }

  datatype Result<+R, +E> = Success(value: R) | Failure(error: E)
}
